=== FILE: README.md ===
# Matomo tracker client: request construction and response classification

This project models the deterministic core of `MatomoTracker`, a Node.js client that sends
analytics events to a Matomo (formerly Piwik) tracking endpoint. It covers:

- the constructor's validation of `siteId`, `trackerUrl` and `noURLValidation`, and how it
  derives `usesHTTPS`;
- `track(options)`. A bare string becomes `{url: s}`. Input without a truthy `url` is
  rejected. The parameters are stamped with `idsite` and `rec = 1`, and the GET target is
  `trackerUrl + "?" + qs.stringify(params)`.
- `trackBulk(events, callback)`. A missing or empty event list is rejected, and so is a null or
  undefined site. Every event is stamped, and the POST body's `requests` list holds
  `"?" + qs.stringify(event)` for each event, in order.
- status classification with the pattern `^(20[04]|30[12478])$`, applied to the decimal text
  of the status code;
- `error` events. They fire only when at least one listener was registered when the call
  started. The bulk callback receives the whole response body, whatever the status.

JavaScript values are the datatype `JsValues.Value`. An object is the ordered list of its
own enumerable properties, so property order follows JavaScript enumeration order. A call is
a pure function of:

- the tracker;
- the number of `error` listeners counted at call start;
- the call's arguments;
- the percent-encoder;
- how the request completed (`Tracker.Completion`).

The call's result records the issued request, the caller's objects after stamping, the
`error` events, and the bodies handed to the callback.

Modules:

- `Wrappers`: the `Option` and `Result` datatypes.
- `JsValues`: JavaScript values and truthiness.
- `Text`: `startsWith`, `endsWith`, integer `toString`, join and split.
- `Params`: property lists, assignment and stamping.
- `QueryString`: `qs.stringify` and reading a query back.
- `Status`: status classification.
- `Tracker`: the class itself.

Behaviour of the code worth noting:

- The constructor rejects every falsy `siteId`, including `0` and `""`, not only missing ones.
  It also rejects an empty `trackerUrl`.
- `track` accepts any truthy `url`, a number for instance, not only a non-empty string.

## Model

| member | source | states |
|---|---|---|
| JsValues.Truthy | index.js:12-28 | the truthiness tests of the constructor and of `track`: a value is falsy exactly when it is `undefined`, `null`, `false`, `0` or `""` |
| Text.StartsWith | index.js:19 | `usesHTTPS` is decided by a prefix test that holds exactly when the URL's first characters are the prefix |
| Text.EndsWith | index.js:15 | the suffix test holds exactly when the URL's last characters are `matomo.php` or `piwik.php` |
| Text.IntToDecimal | index.js:45 | `statusCode.toString()` starts with `-` exactly for negative codes. A non-negative code renders as all digits that read back as the code; a negative code renders as `-` followed by digits that read back as its magnitude. There are no leading zeros: `0` renders as exactly `0`, and `200` is never `0200` |
| Text.DecimalRoundTrip | index.js:45 | the decimal text of a status code reads back as the same number, so distinct codes give distinct texts |
| Text.Join | index.js:34 | joining two or more parts puts the separator in the result, and splitting the joined text on the separator gives back the parts when no part contains it |
| Text.SplitAtFirstPair | index.js:34 | cutting a `key=value` field at its first `=` recovers key and value when the key has no `=` |
| Params.Keys | index.js:34 | the property names in enumeration order, one per property |
| Params.Lookup | index.js:28 | reading `options.url` finds a value exactly when the object has a `url` property, and the value found is that of the first property with that name |
| Params.Prop | index.js:28 | `options.url` is `undefined` on a non-object and on an object without the property; a present property reads as the value of its first occurrence |
| Params.Assign | index.js:32-33 | an assignment of a non-index key keeps the key order when the key exists, otherwise appends the key, and leaves every other position untouched |
| Params.AssignLookup | index.js:32-33 | after `o[key] = v`, reading `key` gives `v` and every other key reads as before |
| Params.AssignKeepsUnique | index.js:32-33 | assignment never duplicates a property name |
| Params.AssignSame | index.js:62-63 | assigning a property the value it already holds changes nothing |
| Params.Stamp | index.js:32-33 | stamping keeps every caller key in place and appends only the missing `idsite`/`rec`, in that order |
| Params.StampLookup | index.js:32-33 | a stamped event reads `idsite = siteId`, `rec = 1`, every other key as before, and its keys stay distinct |
| Params.StampIdempotent | index.js:62-63 | stamping an already stamped object again changes nothing, so a reused or repeated event object gives the same parameters |
| QueryString.EncodeText | index.js:34 | an empty key or string is written as is and any other text is the encoder's output, so with a safe encoder it holds no `&` or `=` |
| QueryString.RenderValue | index.js:34 | a serialised value contains no `&` or `=` when the encoder emits neither |
| QueryString.Field | index.js:34 | a `key=value` field; with a safe encoder it holds no `&`, and cutting it at its first `=` gives back the encoded key and value |
| QueryString.Fields | index.js:34 | one `key=value` field per property, in enumeration order |
| QueryString.Serialize | index.js:34 | the query holds `&` once there are two or more properties, and splitting it on `&` gives back the `key=value` fields when none contains `&`; `QueryString.ParseSerialize` reads the pairs back |
| QueryString.ParseSerialize | index.js:34 | the serialised query splits back into exactly one encoded pair per property, in order |
| QueryString.LookupEncoded | index.js:34 | every property of the object appears, encoded, among the query's pairs |
| QueryString.StampedQueryCarriesSite | index.js:32-34 | the query of a stamped event reads back as its encoded pairs and carries the `idsite` pair with the site and `rec=1` |
| Status.MatchesSuccessPattern | index.js:45 | the anchored pattern accepts exactly the seven texts `200`, `204`, `301`, `302`, `304`, `307` and `308` |
| Status.PatternMatchesExactlySuccessCodes | index.js:45 | the regular expression applied to the status's decimal text accepts exactly 200, 204, 301, 302, 304, 307 and 308 |
| Status.MatchedTextIsSuccessCode | index.js:45 | any code whose text the pattern accepts is one of the seven success codes |
| Status.SuccessCodeTextMatches | index.js:45 | each of the seven success codes renders as text the pattern accepts |
| Status.IsErrorStatus | index.js:44-45 | a response counts as an error exactly when its status is present, non-zero and outside the success codes |
| Status.ErrorStatusExamples | index.js:88-89 | 203, 300, 305 and 500 are errors |
| Status.SuccessStatusExamples | index.js:88-89 | 200, 204 and 308 are not errors, and neither are status 0 and a missing status |
| Tracker.NewTracker | index.js:12-19 | construction succeeds exactly when the site is a non-zero number or a non-empty string, the URL is a non-empty string, and validation is off or the URL ends in `matomo.php`/`piwik.php`. Failures report the first failing check. On success the fields are stored unchanged, and `usesHTTPS` holds exactly when the URL starts with `https`. |
| Tracker.Notifications | index.js:43-53 | one `error` event is emitted exactly when listeners existed at call start and the request failed or returned a present, non-zero, non-success status. A status event carries the code and a transport event carries the message. |
| Tracker.Flatten | index.js:94-99 | the concatenated body is empty exactly when every chunk is empty, and is at least as long as any chunk |
| Tracker.FlattenAppend | index.js:94-99 | concatenating all chunks at the end equals accumulating them batch after batch |
| Tracker.FlattenChunkAt | index.js:94-99 | the callback body holds every chunk in arrival order and nothing else |
| Tracker.CallbackOutputs | index.js:98-100 | the callback is invoked once when a function was given and the response ended, and otherwise never; it receives the chunks concatenated |
| Tracker.NormalizeOptions | index.js:23-27 | a string input becomes exactly `{url: s}` and any other input passes through unchanged; the normalised input's `url` is truthy exactly for input `track` accepts |
| Tracker.HasTrackableUrl | index.js:28 | only strings and objects are accepted: a string exactly when it is truthy, an object exactly when its `url` property is truthy |
| Tracker.Track | index.js:21-34 | `track` succeeds exactly when the input is a non-empty string or an object with a truthy `url`, and otherwise fails with the URL assertion. A string input yields exactly `url`, `idsite`, `rec` in that order. An object is stamped. The request is a GET of `trackerUrl?query` over HTTPS exactly when `usesHTTPS`, and the events follow the listener snapshot. |
| Tracker.StampAll | index.js:61-63 | entry `i` of the stamped list is event `i` stamped, with length kept |
| Tracker.BulkRequests | index.js:60-66 | entry `i` of `requests` is `"?"` followed by the serialisation of event `i`, with length kept |
| Tracker.TrackBulk | index.js:56-66 | `trackBulk` fails first on missing or empty events, then on a null or undefined site. Otherwise it issues one JSON POST to the tracker URL whose `requests` list matches the events one for one, in order. The caller's events are left stamped, `error` events follow the snapshot, and a function callback gets the whole body once per completed response. |
| Tracker.TrackQueryCarriesSite | index.js:32-34 | a `track` query reads back as the stamped parameters, contains the `idsite` pair with the tracker's site and `rec=1`, and keeps the caller's `url` |
| Tracker.TrackStringQuery | index.js:23-34 | `track("<page>")` requests exactly `trackerUrl?url=<page>&idsite=<site>&rec=1`, with keys and strings encoded |
| Tracker.SerializePageQuery | index.js:34 | the parameters of a bare-string `track` serialise as the three fields `url`, `idsite`, `rec` in order |
| Tracker.TrackReuseStable | index.js:32-34 | passing the mutated options object to `track` again issues the identical request and leaves the object unchanged |
| Tracker.BulkEntryMatchesTrack | index.js:61-65 | bulk entry `i` is exactly the query part `track` would request for event `i` |
| Tracker.BulkEntry | index.js:61-64 | for a tracker with a site set, any non-empty event list is accepted, and entry `i` of `requests` is `"?"` followed by the serialisation of event `i` stamped |
| Tracker.TrackObjectUrl | index.js:28-34 | an object with a truthy `url` is accepted by `track` and requested at `trackerUrl` followed by `"?"` and its stamped serialisation |
| Tracker.BulkCallbackIgnoresStatus | index.js:87-101 | the callback's body depends only on the chunks, not on how the status was classified |
| Tracker.ConstructedTrackerAcceptsBulk | index.js:59 | a tracker built by the constructor never fails the bulk call's site check, so a non-empty event list is always accepted |
| Tracker.NotificationExamples | index.js:46-53 | a 500 is reported once with a listener at start and not without one. A 204 and a missing status are never reported. A transport error carries its message. |

## Left out

- Network I/O is not modelled: `http.get`, `https.get`, `http.request`, `https.request`, and
  the `req.write`/`req.end` lifecycle. The model returns the request it would issue. How the
  request ends is a `Completion` parameter: either a response (status and body chunks) or a
  transport failure with its message.
- A request that first responds and then also raises a socket error is not modelled. Each call
  has exactly one completion.
- `url.parse` of the tracker URL into protocol, host, port and path is not modelled. The bulk
  `Post` request carries the whole tracker URL. URL parsing belongs to a library whose rules
  are not part of this model.
- The `Content-Length` header, computed with `Buffer.byteLength`, is not modelled. It depends
  on the runtime's UTF-8 encoding. Only `Content-Type: application/json` is recorded.
- The exact text of `JSON.stringify` is not modelled. The bulk body is represented by its
  `requests` list.
- The percent-encoding of `qs.stringify` is not modelled: the encoder is a parameter of every
  call. Properties that ask for it assume only that the encoder never emits `&` or `=`.
- `qs.stringify` writes an array-valued property as one field per element. The model does not
  do this: objects and arrays render as the empty string.
- Numbers are integers. NaN, infinities and fractions are left out, and so is the exponent
  form that JavaScript uses for magnitudes of 10^21 and above.
- The callback receives the raw body bytes. Decoding them to a string with UTF-8 is runtime
  behaviour and is left out.
- The `EventEmitter` machinery and asynchronous delivery order are reduced to two things: the
  listener count taken at call start and the list of emitted events.
- Node throws when `error` is emitted and no listener remains. This happens if listeners were
  removed after the call started. That case is not modelled.
- A `url` that the source reads through the prototype chain is not modelled. An object is its
  own enumerable properties, so an inherited or non-enumerable `url` (plain or getter-defined), which
  passes the check at index.js:28 and which `qs.stringify` leaves out of the query, makes
  `Track` fail instead.
- JavaScript strings are UTF-16, and the default `qs` encoder throws `URIError` on a lone
  surrogate. In the source that exception comes after the caller's objects are already stamped
  (index.js:32-34, 62-64). Dafny strings cannot hold a lone surrogate and the encoder parameter
  is total, so this exception path is not modelled.
- A function's own properties are not modelled: `JsValues.Func` carries none. The source
  accepts a function carrying a truthy `url` at index.js:28, stamps it, and requests
  `trackerUrl + "?"`, because `qs.stringify` renders a non-object as the empty string. `Track`
  rejects such a function with `UrlRequired`.
- `trackBulk` event lists are lists of objects. An event that is a primitive would make the
  stamping assignment throw; that case is left out.
- `events` is a list or missing. A non-array `events` value is not modelled. Most such values
  (`5`, `true`, `{}`) have no positive `length`. They fail the assertion at index.js:58, with
  the same outcome as the model's `EventsRequired`. Only a truthy value with a positive `length`
  and no `map` method, such as `"abc"` or `{length: 1}`, passes that assertion and then throws a
  `TypeError` at index.js:61. That exception path is left out.
- Caller objects are values. The call's result holds the object's state after the call, so
  mutation is visible there. Aliasing is covered by `Params.StampIdempotent`: an object listed
  twice is stamped to the same state either way.

=== FILE: js_values.dfy ===
/**
 * The JavaScript values the tracker inspects: the constructor's arguments,
 * the options handed to `track`, the parameters of a tracking event and the
 * `trackBulk` callback.
 */
module JsValues {

  /**
   * A JavaScript value. Numbers are integers (NaN, infinities and fractions
   * are not modelled); an object is the ordered list of its own enumerable
   * properties, in the order JavaScript enumerates them.
   */
  datatype Value =
    | Undefined
    | Null
    | Bool(b: bool)
    | Num(n: int)
    | Str(s: string)
    | Func
    | Obj(props: seq<(string, Value)>)

  /** JavaScript truthiness: `false`, `0`, `""`, `null` and `undefined` are falsy. */
  predicate Truthy(v: Value)
    ensures !Truthy(v) <==> v == Undefined || v == Null || v == Bool(false) || v == Num(0) || v == Str("")
  {
    match v
    case Undefined => false
    case Null => false
    case Bool(b) => b
    case Num(n) => n != 0
    case Str(s) => |s| > 0
    case Func => true
    case Obj(_) => true
  }
}

=== FILE: params.dfy ===
/**
 * Tracking parameters: a JavaScript object seen as the ordered list of its
 * own enumerable properties. Assigning an existing property keeps its
 * place; assigning a new (non-index) one adds it after every other
 * property, so the list order is the object's enumeration order.
 */
module Params {
  import opened Wrappers
  import opened JsValues

  type Params = seq<(string, Value)>

  /** The property names, in enumeration order. */
  function Keys(p: Params): (ks: seq<string>)
    ensures |ks| == |p|
    ensures forall i :: 0 <= i < |p| ==> ks[i] == p[i].0
  {
    if |p| == 0 then [] else [p[0].0] + Keys(p[1..])
  }

  /** `(key, v)` sits at position `i` and `key` occurs nowhere before it. */
  ghost predicate FirstAt(p: Params, key: string, v: Value, i: int)
  {
    0 <= i < |p| && p[i] == (key, v) && forall j :: 0 <= j < i ==> p[j].0 != key
  }

  /** The first property named `key` holds `v`. */
  ghost predicate FirstOccurrence(p: Params, key: string, v: Value)
  {
    exists i :: FirstAt(p, key, v, i)
  }

  /** No property name occurs twice, as in every JavaScript object. */
  predicate UniqueKeys(p: Params)
  {
    forall i, j :: 0 <= i < j < |p| ==> p[i].0 != p[j].0
  }

  /** The value stored under `key`, if the object has that property. */
  function Lookup(p: Params, key: string): (r: Option<Value>)
    ensures r.Some? <==> key in Keys(p)
    ensures r.Some? ==> FirstOccurrence(p, key, r.value)
  {
    if |p| == 0 then None
    else if p[0].0 == key then
      assert FirstAt(p, key, p[0].1, 0);
      Some(p[0].1)
    else
      assert Keys(p) == [p[0].0] + Keys(p[1..]);
      var r := Lookup(p[1..], key);
      if r.Some? then
        assert FirstOccurrence(p, key, r.value) by {
          var k :| FirstAt(p[1..], key, r.value, k);
          FirstAtShift(p, key, r.value, k);
        }
        r
      else r
  }

  /** A first occurrence in the tail is a first occurrence in the whole list when the head differs. */
  lemma FirstAtShift(p: Params, key: string, v: Value, k: int)
    requires |p| >= 1 && p[0].0 != key
    requires FirstAt(p[1..], key, v, k)
    ensures FirstAt(p, key, v, k + 1)
  {
    assert forall j :: 1 <= j < k + 1 ==> p[j].0 == p[1..][j - 1].0;
  }

  /** Property read `v.key`: `undefined` for a missing property and for every non-object. */
  function Prop(v: Value, key: string): (r: Value)
    ensures !v.Obj? ==> r == Undefined
    ensures v.Obj? && key !in Keys(v.props) ==> r == Undefined
    ensures r != Undefined ==> v.Obj? && exists i :: 0 <= i < |v.props| && v.props[i] == (key, r)
    ensures v.Obj? && key in Keys(v.props) ==> FirstOccurrence(v.props, key, r)
  {
    if v.Obj? then
      match Lookup(v.props, key)
      case Some(x) => x
      case None => Undefined
    else Undefined
  }

  /**
   * The assignment `o[key] = v` for a non-index key: an existing property
   * is overwritten in place, a missing one is appended.
   */
  function Assign(p: Params, key: string, v: Value): (r: Params)
    ensures key in Keys(p) ==> Keys(r) == Keys(p)
    ensures key !in Keys(p) ==> Keys(r) == Keys(p) + [key]
    ensures forall i :: 0 <= i < |p| && p[i].0 != key ==> r[i] == p[i]
  {
    if |p| == 0 then [(key, v)]
    else if p[0].0 == key then [(key, v)] + p[1..]
    else [p[0]] + Assign(p[1..], key, v)
  }

  /** After `o[key] = v`, reading `key` gives `v` and every other property reads as before. */
  lemma {:induction false} AssignLookup(p: Params, key: string, v: Value, other: string)
    ensures Lookup(Assign(p, key, v), key) == Some(v)
    ensures other != key ==> Lookup(Assign(p, key, v), other) == Lookup(p, other)
  {
    if |p| > 0 && p[0].0 != key {
      AssignLookup(p[1..], key, v, other);
    }
  }

  /** Assignment never makes a property name occur twice. */
  lemma AssignKeepsUnique(p: Params, key: string, v: Value)
    requires UniqueKeys(p)
    ensures UniqueKeys(Assign(p, key, v))
  {
  }

  /** Assigning a property the value it already has changes nothing. */
  lemma {:induction false} AssignSame(p: Params, key: string, v: Value)
    requires Lookup(p, key) == Some(v)
    ensures Assign(p, key, v) == p
  {
    if p[0].0 != key {
      AssignSame(p[1..], key, v);
    }
  }

  const IdSiteKey: string := "idsite"
  const RecKey: string := "rec"

  /**
   * The stamping `track` and `trackBulk` apply to every event before it is
   * serialised: `o.idsite = siteId; o.rec = 1`.
   */
  function Stamp(p: Params, siteId: Value): (r: Params)
    ensures Keys(r) == Keys(p) + (if IdSiteKey in Keys(p) then [] else [IdSiteKey])
                               + (if RecKey in Keys(p) then [] else [RecKey])
    ensures forall i :: 0 <= i < |p| && p[i].0 != IdSiteKey && p[i].0 != RecKey ==> r[i] == p[i]
  {
    var q := Assign(p, IdSiteKey, siteId);
    assert RecKey in Keys(q) <==> RecKey in Keys(p);
    Assign(q, RecKey, Num(1))
  }

  /**
   * A stamped event carries `idsite = siteId` and `rec = 1`, keeps every
   * other property's value, and keeps property names distinct.
   */
  lemma StampLookup(p: Params, siteId: Value)
    ensures Lookup(Stamp(p, siteId), IdSiteKey) == Some(siteId)
    ensures Lookup(Stamp(p, siteId), RecKey) == Some(Num(1))
    ensures forall k :: k != IdSiteKey && k != RecKey ==> Lookup(Stamp(p, siteId), k) == Lookup(p, k)
    ensures UniqueKeys(p) ==> UniqueKeys(Stamp(p, siteId))
  {
    var q := Assign(p, IdSiteKey, siteId);
    AssignLookup(p, IdSiteKey, siteId, RecKey);
    AssignLookup(q, RecKey, Num(1), IdSiteKey);
    forall k | k != IdSiteKey && k != RecKey
      ensures Lookup(Stamp(p, siteId), k) == Lookup(p, k)
    {
      AssignLookup(p, IdSiteKey, siteId, k);
      AssignLookup(q, RecKey, Num(1), k);
    }
    if UniqueKeys(p) {
      AssignKeepsUnique(p, IdSiteKey, siteId);
      AssignKeepsUnique(q, RecKey, Num(1));
    }
  }

  /**
   * Stamping twice with the same site is stamping once: an event object
   * handed to `track` or `trackBulk` again (or twice in one bulk list)
   * produces the same parameters.
   */
  lemma StampIdempotent(p: Params, siteId: Value)
    ensures Stamp(Stamp(p, siteId), siteId) == Stamp(p, siteId)
  {
    var q := Stamp(p, siteId);
    StampLookup(p, siteId);
    AssignSame(q, IdSiteKey, siteId);
    AssignSame(q, RecKey, Num(1));
  }
}

=== FILE: query_string.dfy ===
/**
 * Serialisation of tracking parameters into a query string, after the
 * rules of Node's `querystring.stringify`: each property becomes
 * `key=value`, the fields are joined with `&` in enumeration order, strings
 * are percent-encoded, finite numbers are written in decimal, booleans as
 * `true`/`false`, and every other value as the empty string. The
 * percent-encoding itself is a parameter of the model.
 */
module QueryString {
  import opened JsValues
  import opened Params
  import opened Text

  /** The percent-encoder applied to non-empty strings (`encodeURIComponent`). */
  type Escape = string -> string

  /** An encoder that never emits the field separator `&` or the pair separator `=`. */
  ghost predicate SafeEscape(escape: Escape)
  {
    forall s :: '&' !in escape(s) && '=' !in escape(s)
  }

  /** A key or string value as written into the query: the empty string is left as is. */
  function EncodeText(s: string, escape: Escape): (r: string)
    ensures |s| == 0 ==> r == ""
    ensures |s| > 0 ==> r == escape(s)
    ensures SafeEscape(escape) ==> '&' !in r && '=' !in r
  {
    if |s| == 0 then "" else escape(s)
  }

  /** The text a property value contributes after its `=`. */
  function RenderValue(v: Value, escape: Escape): (r: string)
    ensures SafeEscape(escape) ==> '&' !in r && '=' !in r
  {
    match v
    case Str(s) => EncodeText(s, escape)
    case Num(n) => IntToDecimal(n)
    case Bool(b) => if b then "true" else "false"
    case _ => ""
  }

  /**
   * One `key=value` field; with a safe encoder it holds no `&`, and cutting
   * it at its first `=` gives back the encoded key and value.
   */
  function Field(kv: (string, Value), escape: Escape): (f: string)
    ensures SafeEscape(escape) ==> '&' !in f
    ensures SafeEscape(escape) ==> SplitAtFirst(f, '=') == (EncodeText(kv.0, escape), RenderValue(kv.1, escape))
  {
    var k := EncodeText(kv.0, escape);
    var v := RenderValue(kv.1, escape);
    assert SafeEscape(escape) ==> SplitAtFirst(k + "=" + v, '=') == (k, v) by {
      if SafeEscape(escape) {
        SplitAtFirstPair(k, '=', v);
      }
    }
    k + "=" + v
  }

  /** The fields of `p`, in enumeration order. */
  function Fields(p: Params, escape: Escape): (fs: seq<string>)
    ensures |fs| == |p|
    ensures forall i :: 0 <= i < |p| ==> fs[i] == Field(p[i], escape)
  {
    if |p| == 0 then [] else [Field(p[0], escape)] + Fields(p[1..], escape)
  }

  /**
   * `qs.stringify(p)`: the fields joined with `&`, so that the fields come
   * back out when none of them contains `&`.
   */
  function Serialize(p: Params, escape: Escape): (q: string)
    ensures |p| >= 2 ==> '&' in q
    ensures |p| >= 1 && (forall i :: 0 <= i < |p| ==> '&' !in Field(p[i], escape)) ==> Split(q, '&') == Fields(p, escape)
  {
    Join(Fields(p, escape), '&')
  }

  /** A query string read back as its `(key, value)` text pairs, the way the server splits it. */
  function ParseQuery(q: string): (pairs: seq<(string, string)>)
    ensures |pairs| >= 1
  {
    var parts := Split(q, '&');
    seq(|parts|, i requires 0 <= i < |parts| => SplitAtFirst(parts[i], '='))
  }

  /** The encoded text of each property of `p`, in enumeration order. */
  function EncodedPairs(p: Params, escape: Escape): (pairs: seq<(string, string)>)
    ensures |pairs| == |p|
  {
    seq(|p|, i requires 0 <= i < |p| => (EncodeText(p[i].0, escape), RenderValue(p[i].1, escape)))
  }

  /**
   * With an encoder that never emits `&` or `=`, the serialised query splits
   * back into exactly one encoded pair per property, in order: no property
   * is lost, merged or reordered by serialisation.
   */
  lemma ParseSerialize(p: Params, escape: Escape)
    requires SafeEscape(escape)
    requires |p| >= 1
    ensures ParseQuery(Serialize(p, escape)) == EncodedPairs(p, escape)
  {
    var fs := Fields(p, escape);
    forall i | 0 <= i < |fs|
      ensures '&' !in fs[i]
      ensures SplitAtFirst(fs[i], '=') == (EncodeText(p[i].0, escape), RenderValue(p[i].1, escape))
    {
      assert fs[i] == Field(p[i], escape);
    }
  }

  /** A property the object has appears, encoded, among its query pairs. */
  lemma LookupEncoded(p: Params, key: string, escape: Escape)
    requires Lookup(p, key).Some?
    ensures (EncodeText(key, escape), RenderValue(Lookup(p, key).value, escape)) in EncodedPairs(p, escape)
  {
    var i :| FirstAt(p, key, Lookup(p, key).value, i);
    assert EncodedPairs(p, escape)[i] == (EncodeText(key, escape), RenderValue(Lookup(p, key).value, escape));
  }

  /**
   * The query of a stamped event reads back as its encoded pairs and
   * carries the `idsite` pair with the site and the pair `rec=1`.
   */
  lemma StampedQueryCarriesSite(p: Params, siteId: Value, escape: Escape)
    requires SafeEscape(escape)
    ensures var query := ParseQuery(Serialize(Stamp(p, siteId), escape));
            && query == EncodedPairs(Stamp(p, siteId), escape)
            && (EncodeText(IdSiteKey, escape), RenderValue(siteId, escape)) in query
            && (EncodeText(RecKey, escape), "1") in query
  {
    var stamped := Stamp(p, siteId);
    StampLookup(p, siteId);
    assert |stamped| >= 1 by {
      assert Lookup(stamped, IdSiteKey).Some?;
    }
    ParseSerialize(stamped, escape);
    LookupEncoded(stamped, IdSiteKey, escape);
    LookupEncoded(stamped, RecKey, escape);
    assert RenderValue(Num(1), escape) == "1";
  }
}

=== FILE: status.dfy ===
/**
 * Classification of an HTTP response status, shared by `track` and
 * `trackBulk`: the status is turned into its decimal text and matched
 * against the regular expression `^(20[04]|30[12478])$`; a missing or zero
 * status is never an error.
 */
module Status {
  import opened Wrappers
  import opened Text

  /** The status codes the tracker accepts as success. */
  const SuccessCodes: set<int> := {200, 204, 301, 302, 304, 307, 308}

  /** Whole-string match of `^(20[04]|30[12478])$` (a JavaScript `$` without the `m` flag). */
  predicate MatchesSuccessPattern(s: string)
    ensures MatchesSuccessPattern(s) <==> s in {"200", "204", "301", "302", "304", "307", "308"}
  {
    assert |s| == 3 ==> s == [s[0], s[1], s[2]];
    && |s| == 3
    && ((s[0] == '2' && s[1] == '0' && s[2] in "04")
        || (s[0] == '3' && s[1] == '0' && s[2] in "12478"))
  }

  /**
   * A response status the tracker reports as an error (`res.statusCode`
   * truthy and its text not matching): exactly a present, non-zero status
   * outside the success codes.
   */
  predicate IsErrorStatus(status: Option<int>)
    ensures IsErrorStatus(status) <==> status.Some? && status.value != 0 && status.value !in SuccessCodes
  {
    if status.Some? then
      PatternMatchesExactlySuccessCodes(status.value);
      status.value != 0 && !MatchesSuccessPattern(IntToDecimal(status.value))
    else false
  }

  /** The three-character decimal texts of three-digit codes, read back. */
  lemma ThreeDigitValue(s: string)
    requires |s| == 3 && AllDigits(s)
    ensures DecimalToNat(s) == 100 * DigitValue(s[0]) + 10 * DigitValue(s[1]) + DigitValue(s[2])
  {
    var t := s[..2];
    assert t[..1] == s[..1] && t[1] == s[1];
    assert s[..1][..0] == [];
    assert DecimalToNat(s[..1]) == DigitValue(s[0]);
    assert DecimalToNat(t) == 10 * DigitValue(s[0]) + DigitValue(s[1]);
  }

  /** The pattern applied to `n.toString()` accepts exactly the success codes. */
  lemma PatternMatchesExactlySuccessCodes(n: int)
    ensures MatchesSuccessPattern(IntToDecimal(n)) <==> n in SuccessCodes
  {
    if MatchesSuccessPattern(IntToDecimal(n)) {
      MatchedTextIsSuccessCode(n);
    }
    if n in SuccessCodes {
      SuccessCodeTextMatches(n);
    }
  }

  /** Only a success code renders as text the pattern accepts. */
  lemma MatchedTextIsSuccessCode(n: int)
    requires MatchesSuccessPattern(IntToDecimal(n))
    ensures n in SuccessCodes
  {
    var s := IntToDecimal(n);
    assert n >= 0;
    ThreeDigitValue(s);
  }

  /** Every success code renders as text the pattern accepts. */
  lemma SuccessCodeTextMatches(n: int)
    requires n in SuccessCodes
    ensures MatchesSuccessPattern(IntToDecimal(n))
  {
    assert IntToDecimal(n) == NatToDecimal(n / 10) + [DigitChar(n % 10)];
    assert NatToDecimal(n / 10) == NatToDecimal(n / 100) + [DigitChar(n / 10 % 10)];
  }

  /** 203, 300, 305 and 500 are errors. */
  lemma ErrorStatusExamples()
    ensures IsErrorStatus(Some(203)) && IsErrorStatus(Some(300))
    ensures IsErrorStatus(Some(305)) && IsErrorStatus(Some(500))
  {
    PatternMatchesExactlySuccessCodes(203);
    PatternMatchesExactlySuccessCodes(300);
    PatternMatchesExactlySuccessCodes(305);
    PatternMatchesExactlySuccessCodes(500);
  }

  /** 200, 204 and 308 are not errors, and neither are 0 and a missing status. */
  lemma SuccessStatusExamples()
    ensures !IsErrorStatus(Some(200)) && !IsErrorStatus(Some(204)) && !IsErrorStatus(Some(308))
    ensures !IsErrorStatus(Some(0)) && !IsErrorStatus(None)
  {
    PatternMatchesExactlySuccessCodes(200);
    PatternMatchesExactlySuccessCodes(204);
    PatternMatchesExactlySuccessCodes(308);
  }
}

=== FILE: text.dfy ===
/**
 * String operations the tracker relies on: the `startsWith`/`endsWith`
 * tests of the constructor, `Number.prototype.toString` for integers, and
 * joining and splitting on a separator character (the shape of a query
 * string).
 */
module Text {

  /** `s.startsWith(prefix)`, decided character by character. */
  function StartsWith(s: string, prefix: string): (r: bool)
    ensures r <==> |prefix| <= |s| && s[..|prefix|] == prefix
  {
    if |prefix| == 0 then true
    else if |s| == 0 then false
    else s[0] == prefix[0] && StartsWith(s[1..], prefix[1..])
  }

  /** `s.endsWith(suffix)`, decided from the last character backwards. */
  function EndsWith(s: string, suffix: string): (r: bool)
    ensures r <==> |suffix| <= |s| && s[|s| - |suffix|..] == suffix
  {
    if |suffix| == 0 then true
    else if |s| == 0 then false
    else s[|s| - 1] == suffix[|suffix| - 1] && EndsWith(s[..|s| - 1], suffix[..|suffix| - 1])
  }

  predicate IsDigit(c: char)
  {
    '0' <= c <= '9'
  }

  predicate AllDigits(s: string)
  {
    forall i :: 0 <= i < |s| ==> IsDigit(s[i])
  }

  function DigitChar(d: nat): (c: char)
    requires d < 10
    ensures IsDigit(c)
  {
    ('0' as int + d) as char
  }

  function DigitValue(c: char): nat
    requires IsDigit(c)
  {
    c as int - '0' as int
  }

  /** The decimal digits of `n`, most significant first, without leading zeros. */
  function NatToDecimal(n: nat): (r: string)
    ensures |r| >= 1 && AllDigits(r)
    ensures n == 0 ==> r == "0"
    ensures n > 0 ==> r[0] != '0'
  {
    if n < 10 then [DigitChar(n)] else NatToDecimal(n / 10) + [DigitChar(n % 10)]
  }

  /** The number a string of decimal digits denotes. */
  function DecimalToNat(s: string): nat
    requires AllDigits(s)
  {
    if |s| == 0 then 0 else 10 * DecimalToNat(s[..|s| - 1]) + DigitValue(s[|s| - 1])
  }

  /** Reading back the digits of `n` gives `n`: the decimal rendering loses nothing. */
  lemma {:induction false} DecimalRoundTrip(n: nat)
    ensures DecimalToNat(NatToDecimal(n)) == n
  {
    var r := NatToDecimal(n);
    if n >= 10 {
      DecimalRoundTrip(n / 10);
      assert r[..|r| - 1] == NatToDecimal(n / 10);
    }
  }

  /** `n.toString()` for an integer-valued JavaScript number. */
  function IntToDecimal(n: int): (r: string)
    ensures |r| >= 1
    ensures r[0] == '-' <==> n < 0
    ensures n >= 0 ==> AllDigits(r) && DecimalToNat(r) == n
    ensures n < 0 ==> AllDigits(r[1..]) && DecimalToNat(r[1..]) == -n
    ensures forall i :: 1 <= i < |r| ==> IsDigit(r[i])
    ensures n == 0 ==> r == "0"
    ensures n > 0 ==> r[0] != '0'
    ensures n < 0 ==> r[1] != '0'
  {
    DecimalRoundTrip(if n < 0 then -n else n);
    if n < 0 then "-" + NatToDecimal(-n) else NatToDecimal(n)
  }

  /**
   * The parts of `parts` separated by single `sep` characters
   * (`parts.join(sep)`); splitting on `sep` undoes it when no part contains
   * the separator.
   */
  function Join(parts: seq<string>, sep: char): (r: string)
    ensures |parts| >= 2 ==> sep in r
    ensures |parts| >= 1 && (forall i :: 0 <= i < |parts| ==> sep !in parts[i]) ==> Split(r, sep) == parts
  {
    if |parts| == 0 then ""
    else if |parts| == 1 then
      if sep in parts[0] then parts[0] else (SplitWhole(parts[0], sep); parts[0])
    else
      var rest := Join(parts[1..], sep);
      assert (parts[0] + [sep] + rest)[|parts[0]|] == sep;
      if sep in parts[0] then parts[0] + [sep] + rest
      else
        SplitAfterPiece(parts[0], sep, rest);
        assert [parts[0]] + parts[1..] == parts;
        parts[0] + [sep] + rest
  }

  /** The pieces of `s` between occurrences of `sep` (`s.split(sep)`); never empty. */
  function Split(s: string, sep: char): (r: seq<string>)
    ensures |r| >= 1
  {
    if |s| == 0 then [""]
    else
      var rest := Split(s[1..], sep);
      if s[0] == sep then [""] + rest else [[s[0]] + rest[0]] + rest[1..]
  }

  /** A piece free of the separator is kept whole, and splitting resumes after the separator. */
  lemma {:induction false} SplitAfterPiece(a: string, sep: char, b: string)
    requires sep !in a
    ensures Split(a + [sep] + b, sep) == [a] + Split(b, sep)
  {
    if |a| > 0 {
      assert (a + [sep] + b)[1..] == a[1..] + [sep] + b;
      SplitAfterPiece(a[1..], sep, b);
      assert [a[0]] + a[1..] == a;
    } else {
      assert (a + [sep] + b)[1..] == b;
    }
  }

  /** A string free of the separator splits into itself alone. */
  lemma {:induction false} SplitWhole(a: string, sep: char)
    requires sep !in a
    ensures Split(a, sep) == [a]
  {
    if |a| > 0 {
      SplitWhole(a[1..], sep);
      assert [a[0]] + a[1..] == a;
    }
  }

  /** `s` cut at its first `sep`: the text before it and the text after it (all of `s` and "" if none). */
  function SplitAtFirst(s: string, sep: char): (string, string)
  {
    if |s| == 0 then ("", "")
    else if s[0] == sep then ("", s[1..])
    else
      var (a, b) := SplitAtFirst(s[1..], sep);
      ([s[0]] + a, b)
  }

  /** Cutting `k + sep + v` at its first separator recovers `k` and `v` when `k` has no separator. */
  lemma {:induction false} SplitAtFirstPair(k: string, sep: char, v: string)
    requires sep !in k
    ensures SplitAtFirst(k + [sep] + v, sep) == (k, v)
  {
    if |k| > 0 {
      assert (k + [sep] + v)[1..] == k[1..] + [sep] + v;
      SplitAtFirstPair(k[1..], sep, v);
      assert [k[0]] + k[1..] == k;
    } else {
      assert (k + [sep] + v)[1..] == v;
    }
  }
}

=== FILE: tracker.dfy ===
/**
 * The `MatomoTracker` class: constructor validation, the single-event GET
 * request of `track`, the bulk POST request of `trackBulk`, and what each
 * call reports once its request completes. A call is modelled as a pure
 * function of the tracker, the number of `error` listeners registered when
 * the call starts, the call's arguments, the percent-encoder, and the way
 * the request completed.
 */
module Tracker {
  import opened Wrappers
  import opened JsValues
  import opened Text
  import opened Params
  import opened QueryString
  import opened Status

  type byte = bv8

  /** The fields a constructed tracker holds. */
  datatype Tracker = Tracker(siteId: Value, trackerUrl: string, usesHTTPS: bool)

  /** The failed assertion that stops a constructor or a call before any request is issued. */
  datatype AssertionError =
    | SiteIdRequired      // the constructor's siteId is falsy or neither a number nor a string
    | TrackerUrlRequired  // the constructor's tracker URL is not a non-empty string
    | TrackerUrlSuffix    // the tracker URL does not name matomo.php or piwik.php
    | UrlRequired         // `track` was given nothing with a truthy `url`
    | EventsRequired      // `trackBulk` was given no events
    | SiteIdUnset         // `trackBulk` found the tracker's siteId null or undefined

  const HttpsPrefix: string := "https"
  const MatomoEndpoint: string := "matomo.php"
  const PiwikEndpoint: string := "piwik.php"
  const UrlKey: string := "url"
  const JsonContentType: string := "application/json"

  /** A site identifier the constructor accepts: a non-zero number or a non-empty string. */
  ghost predicate AcceptedSiteId(v: Value)
  {
    (v.Num? && v.n != 0) || (v.Str? && v.s != "")
  }

  /** A tracker URL the constructor accepts: a non-empty string. */
  ghost predicate AcceptedTrackerUrl(v: Value)
  {
    v.Str? && v.s != ""
  }

  /** `new MatomoTracker(siteId, trackerUrl, noURLValidation)`; the checks run in this order. */
  function NewTracker(siteId: Value, trackerUrl: Value, noURLValidation: Value): (r: Result<Tracker, AssertionError>)
    ensures r.Success? <==>
              && AcceptedSiteId(siteId)
              && AcceptedTrackerUrl(trackerUrl)
              && (Truthy(noURLValidation)
                  || EndsWith(trackerUrl.s, MatomoEndpoint) || EndsWith(trackerUrl.s, PiwikEndpoint))
    ensures !AcceptedSiteId(siteId) ==> r == Failure(SiteIdRequired)
    ensures AcceptedSiteId(siteId) && !AcceptedTrackerUrl(trackerUrl) ==> r == Failure(TrackerUrlRequired)
    ensures r == Failure(TrackerUrlSuffix) <==>
              && AcceptedSiteId(siteId) && AcceptedTrackerUrl(trackerUrl) && !Truthy(noURLValidation)
              && !EndsWith(trackerUrl.s, MatomoEndpoint) && !EndsWith(trackerUrl.s, PiwikEndpoint)
    ensures r.Success? ==>
              && r.value.siteId == siteId
              && r.value.trackerUrl == trackerUrl.s
              && (r.value.usesHTTPS <==> |trackerUrl.s| >= |HttpsPrefix| && trackerUrl.s[..|HttpsPrefix|] == HttpsPrefix)
  {
    if !(Truthy(siteId) && (siteId.Num? || siteId.Str?)) then Failure(SiteIdRequired)
    else if !(Truthy(trackerUrl) && trackerUrl.Str?) then Failure(TrackerUrlRequired)
    else if !Truthy(noURLValidation)
            && !(EndsWith(trackerUrl.s, MatomoEndpoint) || EndsWith(trackerUrl.s, PiwikEndpoint))
    then Failure(TrackerUrlSuffix)
    else Success(Tracker(siteId, trackerUrl.s, StartsWith(trackerUrl.s, HttpsPrefix)))
  }

  /** The request a call issues; the transport is HTTPS when `secure` holds. */
  datatype Request =
    | Get(url: string, secure: bool)
    | Post(url: string, secure: bool, contentType: string, requests: seq<string>)

  /** An `error` event: the offending status code, or a transport error's message. */
  datatype Notification = StatusError(code: int) | TransportError(message: string)

  /**
   * How an issued request ended: a response with its status (absent when
   * the response carries none) and its body chunks in arrival order, or a
   * transport failure with its message.
   */
  datatype Completion =
    | Responded(status: Option<int>, chunks: seq<seq<byte>>)
    | Failed(message: string)

  /** What a `track` call did: its request, the caller's parameters after stamping, and its `error` events. */
  datatype TrackCall = TrackCall(request: Request, params: Params, notifications: seq<Notification>)

  /**
   * What a `trackBulk` call did: its request, the caller's events after
   * stamping, its `error` events, and the bodies passed to the callback.
   */
  datatype BulkCall = BulkCall(
    request: Request,
    events: seq<Params>,
    notifications: seq<Notification>,
    callbackOutputs: seq<seq<byte>>)

  /**
   * The `error` events a completed request causes, given the number of
   * listeners counted when the call started: none when there were no
   * listeners then, whatever happened later.
   */
  function Notifications(listenersAtStart: nat, c: Completion): (ns: seq<Notification>)
    ensures |ns| <= 1
    ensures |ns| == 1 <==>
              && listenersAtStart > 0
              && (c.Failed? || (c.status.Some? && c.status.value != 0 && c.status.value !in SuccessCodes))
    ensures |ns| == 1 && c.Responded? ==> ns[0] == StatusError(c.status.value)
    ensures |ns| == 1 && c.Failed? ==> ns[0] == TransportError(c.message)
  {
    match c
    case Responded(status, _) =>
      if IsErrorStatus(status) && listenersAtStart > 0 then [StatusError(status.value)] else []
    case Failed(message) =>
      if listenersAtStart > 0 then [TransportError(message)] else []
  }

  /**
   * The body chunks joined in arrival order (`Buffer.concat`): empty exactly
   * when every chunk is, and at least as long as any chunk.
   */
  function Flatten(chunks: seq<seq<byte>>): (body: seq<byte>)
    ensures body == [] <==> forall i :: 0 <= i < |chunks| ==> chunks[i] == []
    ensures forall i :: 0 <= i < |chunks| ==> |chunks[i]| <= |body|
  {
    if |chunks| == 0 then []
    else
      var rest := Flatten(chunks[1..]);
      assert forall i :: 1 <= i < |chunks| ==> chunks[i] == chunks[1..][i - 1];
      chunks[0] + rest
  }

  /** Concatenating all chunks at the end equals pushing them one batch after another. */
  lemma {:induction false} FlattenAppend(a: seq<seq<byte>>, b: seq<seq<byte>>)
    ensures Flatten(a + b) == Flatten(a) + Flatten(b)
  {
    if |a| > 0 {
      assert (a + b)[1..] == a[1..] + b;
      FlattenAppend(a[1..], b);
    } else {
      assert a + b == b;
    }
  }

  /** The accumulated body holds every byte of every chunk, in order, and nothing else. */
  lemma {:induction false} FlattenChunkAt(chunks: seq<seq<byte>>, i: nat)
    requires i < |chunks|
    ensures Flatten(chunks) == Flatten(chunks[..i]) + chunks[i] + Flatten(chunks[i + 1..])
  {
    assert chunks == chunks[..i] + [chunks[i]] + chunks[i + 1..];
    FlattenAppend(chunks[..i] + [chunks[i]], chunks[i + 1..]);
    FlattenAppend(chunks[..i], [chunks[i]]);
    assert Flatten([chunks[i]]) == chunks[i] + Flatten([]);
  }

  /** The bodies handed to the `trackBulk` callback: the whole body once, when a function was given and a response ended. */
  function CallbackOutputs(callback: Value, c: Completion): (outs: seq<seq<byte>>)
    ensures |outs| <= 1
    ensures |outs| == 1 <==> callback.Func? && c.Responded?
    ensures |outs| == 1 ==> outs[0] == Flatten(c.chunks)
  {
    if callback.Func? && c.Responded? then [Flatten(c.chunks)] else []
  }

  /**
   * A bare string is shorthand for `{url: s}`; anything else is used as
   * given. The result's `url` is truthy exactly for input `track` accepts.
   */
  function NormalizeOptions(options: Value): (o: Value)
    ensures !o.Str?
    ensures options.Str? ==> o == Obj([(UrlKey, options)])
    ensures !options.Str? ==> o == options
    ensures options.Str? ==> o.Obj? && Prop(o, UrlKey) == options
    ensures Truthy(Prop(o, UrlKey)) <==> HasTrackableUrl(options)
  {
    if options.Str? then Obj([(UrlKey, options)]) else options
  }

  /** Input `track` accepts: a non-empty string, or an object whose `url` property is truthy. */
  predicate HasTrackableUrl(options: Value)
    ensures HasTrackableUrl(options) ==> options.Str? || options.Obj?
    ensures options.Str? ==> (HasTrackableUrl(options) <==> Truthy(options))
    ensures options.Obj? ==> (HasTrackableUrl(options) <==> Truthy(Prop(options, UrlKey)))
  {
    || (options.Str? && options.s != "")
    || (options.Obj? && Lookup(options.props, UrlKey).Some? && Truthy(Lookup(options.props, UrlKey).value))
  }

  /**
   * `tracker.track(options)`: rejects input without a truthy `url`, stamps
   * `idsite` and `rec`, and issues `GET trackerUrl?query`.
   */
  function Track(t: Tracker, listenersAtStart: nat, options: Value, escape: Escape, completion: Completion)
    : (r: Result<TrackCall, AssertionError>)
    ensures r.Success? <==> HasTrackableUrl(options)
    ensures r.Failure? ==> r.error == UrlRequired
    ensures r.Success? && options.Str? ==>
              r.value.params == [(UrlKey, options), (IdSiteKey, t.siteId), (RecKey, Num(1))]
    ensures r.Success? && options.Obj? ==> r.value.params == Stamp(options.props, t.siteId)
    ensures r.Success? ==>
              r.value.request == Get(t.trackerUrl + "?" + Serialize(r.value.params, escape), t.usesHTTPS)
    ensures r.Success? ==> r.value.notifications == Notifications(listenersAtStart, completion)
  {
    var o := NormalizeOptions(options);
    if !Truthy(o) || !Truthy(Prop(o, UrlKey)) then Failure(UrlRequired)
    else
      var params := Stamp(o.props, t.siteId);
      assert options.Str? ==> params == [(UrlKey, options), (IdSiteKey, t.siteId), (RecKey, Num(1))] by {
        if options.Str? {
          var q := [(UrlKey, options)];
          assert Assign(q, IdSiteKey, t.siteId) == q + [(IdSiteKey, t.siteId)];
          var q2 := q + [(IdSiteKey, t.siteId)];
          assert q2[1..] == [(IdSiteKey, t.siteId)];
          assert Assign(q2[1..], RecKey, Num(1)) == [(IdSiteKey, t.siteId), (RecKey, Num(1))];
          assert Assign(q2, RecKey, Num(1)) == [q2[0]] + Assign(q2[1..], RecKey, Num(1));
        }
      }
      Success(TrackCall(Get(t.trackerUrl + "?" + Serialize(params, escape), t.usesHTTPS),
                        params,
                        Notifications(listenersAtStart, completion)))
  }

  /** Every event stamped, in order. */
  function StampAll(events: seq<Params>, siteId: Value): (stamped: seq<Params>)
    ensures |stamped| == |events|
    ensures forall i :: 0 <= i < |events| ==> stamped[i] == Stamp(events[i], siteId)
  {
    if |events| == 0 then [] else [Stamp(events[0], siteId)] + StampAll(events[1..], siteId)
  }

  /** The `requests` list of the bulk body: `"?" + qs.stringify(event)` per stamped event, in order. */
  function BulkRequests(stamped: seq<Params>, escape: Escape): (rs: seq<string>)
    ensures |rs| == |stamped|
    ensures forall i :: 0 <= i < |stamped| ==> rs[i] == "?" + Serialize(stamped[i], escape)
  {
    if |stamped| == 0 then [] else ["?" + Serialize(stamped[0], escape)] + BulkRequests(stamped[1..], escape)
  }

  /**
   * `tracker.trackBulk(events, callback)`: rejects a missing or empty event
   * list and an unset site, stamps every event, issues one JSON POST, and
   * passes the whole response body to the callback.
   */
  function TrackBulk(t: Tracker, listenersAtStart: nat, events: Option<seq<Params>>, callback: Value,
                     escape: Escape, completion: Completion)
    : (r: Result<BulkCall, AssertionError>)
    ensures events.None? || events.value == [] ==> r == Failure(EventsRequired)
    ensures events.Some? && events.value != [] && t.siteId in {Undefined, Null} ==> r == Failure(SiteIdUnset)
    ensures r.Success? <==> events.Some? && events.value != [] && t.siteId !in {Undefined, Null}
    ensures r.Success? ==>
              && r.value.request.Post?
              && r.value.request.url == t.trackerUrl
              && r.value.request.secure == t.usesHTTPS
              && r.value.request.contentType == JsonContentType
              && |r.value.request.requests| == |events.value|
              && (forall i :: 0 <= i < |events.value| ==>
                    r.value.request.requests[i] == "?" + Serialize(Stamp(events.value[i], t.siteId), escape))
    ensures r.Success? ==>
              && |r.value.events| == |events.value|
              && forall i :: 0 <= i < |events.value| ==> r.value.events[i] == Stamp(events.value[i], t.siteId)
    ensures r.Success? ==> r.value.notifications == Notifications(listenersAtStart, completion)
    ensures r.Success? && completion.Responded? && callback.Func? ==>
              r.value.callbackOutputs == [Flatten(completion.chunks)]
    ensures r.Success? && !(completion.Responded? && callback.Func?) ==> r.value.callbackOutputs == []
  {
    if events.None? || |events.value| == 0 then Failure(EventsRequired)
    else if t.siteId == Undefined || t.siteId == Null then Failure(SiteIdUnset)
    else
      var stamped := StampAll(events.value, t.siteId);
      Success(BulkCall(Post(t.trackerUrl, t.usesHTTPS, JsonContentType, BulkRequests(stamped, escape)),
                       stamped,
                       Notifications(listenersAtStart, completion),
                       CallbackOutputs(callback, completion)))
  }

  /**
   * The query of a `track` request reads back, pair by pair, as the
   * stamped parameters: it carries `idsite` with the tracker's site, `rec`
   * with 1, and the caller's `url` unchanged.
   */
  lemma TrackQueryCarriesSite(t: Tracker, listenersAtStart: nat, options: Value, escape: Escape, completion: Completion)
    requires SafeEscape(escape)
    requires HasTrackableUrl(options)
    ensures var call := Track(t, listenersAtStart, options, escape, completion).value;
            var query := ParseQuery(Serialize(call.params, escape));
            && query == EncodedPairs(call.params, escape)
            && Lookup(call.params, UrlKey) == Lookup(NormalizeOptions(options).props, UrlKey)
            && (EncodeText(IdSiteKey, escape), RenderValue(t.siteId, escape)) in query
            && (EncodeText(RecKey, escape), "1") in query
  {
    var o := NormalizeOptions(options);
    assert Track(t, listenersAtStart, options, escape, completion).value.params == Stamp(o.props, t.siteId);
    StampLookup(o.props, t.siteId);
    StampedQueryCarriesSite(o.props, t.siteId, escape);
  }

  /**
   * `track("<page>")` requests exactly
   * `trackerUrl?url=<page>&idsite=<site>&rec=1`, each key and string encoded.
   */
  lemma TrackStringQuery(t: Tracker, listenersAtStart: nat, page: string, escape: Escape, completion: Completion)
    requires page != ""
    ensures Track(t, listenersAtStart, Str(page), escape, completion).Success?
    ensures Track(t, listenersAtStart, Str(page), escape, completion).value.request.url
              == t.trackerUrl + "?" + ((escape(UrlKey) + "=" + escape(page))
                                       + "&" + ((escape(IdSiteKey) + "=" + RenderValue(t.siteId, escape))
                                       + "&" + (escape(RecKey) + "=1")))
  {
    var p := [(UrlKey, Str(page)), (IdSiteKey, t.siteId), (RecKey, Num(1))];
    assert Track(t, listenersAtStart, Str(page), escape, completion).value.params == p;
    SerializePageQuery(page, t.siteId, escape);
  }

  /** The serialised parameters of `track("<page>")`, field by field. */
  lemma SerializePageQuery(page: string, siteId: Value, escape: Escape)
    requires page != ""
    ensures Serialize([(UrlKey, Str(page)), (IdSiteKey, siteId), (RecKey, Num(1))], escape)
              == (escape(UrlKey) + "=" + escape(page))
                 + "&" + ((escape(IdSiteKey) + "=" + RenderValue(siteId, escape))
                 + "&" + (escape(RecKey) + "=1"))
  {
    var p := [(UrlKey, Str(page)), (IdSiteKey, siteId), (RecKey, Num(1))];
    var fs := Fields(p, escape);
    var f0 := escape(UrlKey) + "=" + escape(page);
    var f1 := escape(IdSiteKey) + "=" + RenderValue(siteId, escape);
    var f2 := escape(RecKey) + "=1";
    assert |UrlKey| > 0 && |IdSiteKey| > 0 && |RecKey| > 0;
    assert RenderValue(Num(1), escape) == "1";
    assert fs[0] == f0 && fs[1] == f1 && fs[2] == f2;
    assert Join(fs[1..][1..], '&') == f2;
    assert Join(fs[1..], '&') == f1 + "&" + f2;
    assert Join(fs, '&') == f0 + "&" + (f1 + "&" + f2);
  }

  /**
   * Handing the same (already stamped) object to `track` again issues the
   * same request and leaves the object as it was.
   */
  lemma TrackReuseStable(t: Tracker, l1: nat, l2: nat, options: Value, escape: Escape, c1: Completion, c2: Completion)
    requires HasTrackableUrl(options)
    ensures var first := Track(t, l1, options, escape, c1).value;
            var again := Track(t, l2, Obj(first.params), escape, c2);
            && again.Success?
            && again.value.params == first.params
            && again.value.request == first.request
  {
    var first := Track(t, l1, options, escape, c1).value;
    var o := NormalizeOptions(options);
    var p := Stamp(o.props, t.siteId);
    assert first.params == p;
    StampLookup(o.props, t.siteId);
    assert Lookup(p, UrlKey) == Lookup(o.props, UrlKey);
    StampIdempotent(o.props, t.siteId);
    var again := Track(t, l2, Obj(p), escape, c2);
    assert again.Success?;
    assert again.value.params == Stamp(p, t.siteId) == p;
  }

  /**
   * Entry `i` of a bulk body is the query `track` would send for event `i`
   * (when that event has a truthy `url`): both stamp the same way.
   */
  lemma BulkEntryMatchesTrack(t: Tracker, listenersAtStart: nat, events: seq<Params>, callback: Value,
                              escape: Escape, c1: Completion, c2: Completion, i: nat)
    requires t.siteId != Undefined && t.siteId != Null
    requires i < |events|
    requires Lookup(events[i], UrlKey).Some? && Truthy(Lookup(events[i], UrlKey).value)
    ensures TrackBulk(t, listenersAtStart, Some(events), callback, escape, c1).Success?
    ensures Track(t, listenersAtStart, Obj(events[i]), escape, c2).Success?
    ensures Track(t, listenersAtStart, Obj(events[i]), escape, c2).value.request.url
              == t.trackerUrl + TrackBulk(t, listenersAtStart, Some(events), callback, escape, c1).value.request.requests[i]
  {
    BulkEntry(t, listenersAtStart, events, callback, escape, c1, i);
    TrackObjectUrl(t, listenersAtStart, events[i], escape, c2);
  }

  /** Entry `i` of a bulk body, for a tracker whose site is set. */
  lemma BulkEntry(t: Tracker, listenersAtStart: nat, events: seq<Params>, callback: Value,
                  escape: Escape, completion: Completion, i: nat)
    requires t.siteId != Undefined && t.siteId != Null
    requires i < |events|
    ensures TrackBulk(t, listenersAtStart, Some(events), callback, escape, completion).Success?
    ensures TrackBulk(t, listenersAtStart, Some(events), callback, escape, completion).value.request.requests[i]
              == "?" + Serialize(Stamp(events[i], t.siteId), escape)
  {
    assert events != [];
  }

  /** The request `track` issues for an object with a truthy `url`. */
  lemma TrackObjectUrl(t: Tracker, listenersAtStart: nat, event: Params, escape: Escape, completion: Completion)
    requires HasTrackableUrl(Obj(event))
    ensures Track(t, listenersAtStart, Obj(event), escape, completion).Success?
    ensures Track(t, listenersAtStart, Obj(event), escape, completion).value.request.url
              == t.trackerUrl + ("?" + Serialize(Stamp(event, t.siteId), escape))
  {
    var url := Track(t, listenersAtStart, Obj(event), escape, completion).value.request.url;
    var query := Serialize(Stamp(event, t.siteId), escape);
    assert url == t.trackerUrl + "?" + query;
    ConcatAssoc(t.trackerUrl, "?", query);
  }

  /**
   * Regrouping a concatenation. It states nothing about the tracker; it only
   * steers the solver, proved apart so that the regrouping happens in a
   * small context.
   */
  lemma ConcatAssoc(a: string, b: string, c: string)
    ensures a + b + c == a + (b + c)
  {
  }

  /**
   * The callback of `trackBulk` receives the same body whatever the status
   * was classified as: it depends only on the chunks.
   */
  lemma BulkCallbackIgnoresStatus(t: Tracker, listenersAtStart: nat, events: seq<Params>, callback: Value,
                                  escape: Escape, s1: Option<int>, s2: Option<int>, chunks: seq<seq<byte>>)
    requires events != [] && t.siteId != Undefined && t.siteId != Null
    ensures TrackBulk(t, listenersAtStart, Some(events), callback, escape, Responded(s1, chunks)).Success?
    ensures TrackBulk(t, listenersAtStart, Some(events), callback, escape, Responded(s2, chunks)).Success?
    ensures TrackBulk(t, listenersAtStart, Some(events), callback, escape, Responded(s1, chunks)).value.callbackOutputs
         == TrackBulk(t, listenersAtStart, Some(events), callback, escape, Responded(s2, chunks)).value.callbackOutputs
  {
  }

  /** A tracker the constructor built never trips the bulk call's site check. */
  lemma ConstructedTrackerAcceptsBulk(siteId: Value, trackerUrl: Value, noURLValidation: Value, listenersAtStart: nat,
                                      events: seq<Params>, callback: Value, escape: Escape, completion: Completion)
    requires NewTracker(siteId, trackerUrl, noURLValidation).Success?
    requires events != []
    ensures TrackBulk(NewTracker(siteId, trackerUrl, noURLValidation).value, listenersAtStart, Some(events),
                      callback, escape, completion).Success?
  {
  }

  /**
   * A 500 response is reported once when a listener was registered at the
   * start of the call, and not at all when none was; a 204 is never reported.
   */
  lemma NotificationExamples(chunks: seq<seq<byte>>)
    ensures Notifications(1, Responded(Some(500), chunks)) == [StatusError(500)]
    ensures Notifications(0, Responded(Some(500), chunks)) == []
    ensures Notifications(3, Responded(Some(204), chunks)) == []
    ensures Notifications(1, Responded(None, chunks)) == []
    ensures Notifications(1, Failed("ECONNREFUSED")) == [TransportError("ECONNREFUSED")]
  {
  }
}

=== FILE: wrappers.dfy ===
/** Failure-carrying datatypes shared by the tracker model. */
module Wrappers {

  /** A value that may be absent (a JavaScript `undefined` slot, a missing key). */
  datatype Option<+T> = None | Some(value: T)

  /** Either a value or the error that stopped its computation (a thrown assertion). */
  datatype Result<+T, +E> = Success(value: T) | Failure(error: E)
}
